=== FILE: README.md ===
# nest-auth-api core, modelled in Dafny

This project models the sequential logic of the NestJS authentication API:

- **E-mail verification** (`EmailService`). `sendVerificationCode` stores the code under `verify:<email>` for 300 s and mails it. `verifyCode` checks the submitted code against the stored one. On a match it stores `verify-done:<email> = "true"` for 600 s.
- **Credential check and token issuance** (`AuthService`). `validateUser` looks the user up by e-mail and compares the password with bcrypt. `login` signs the payload `{sub, email}` twice: once with `expiresIn: '15m'`, once with `'7d'`.
- **Sign-up** (`UsersService.create`). It refuses an e-mail that is already taken. Otherwise it saves a user whose password is the bcrypt hash of the plaintext.
- **`RolesGuard.canActivate`**. It allows a request iff `request.user?.role === 'admin'`. `JwtStrategy.validate` builds a request user from a token's payload. Neither class is wired into the application: `AuthModule` provides only `AuthService`, and no route applies `RolesGuard`. The model relates the two to show what the guard would decide if it were applied to a token-authenticated route.

Each service is a pure function over an immutable state record:

- the Redis store: a map from key to `(value, expiresAt)` plus a clock;
- the mail outbox;
- the `users` table: a map keyed by the unique e-mail column, plus the next generated id;
- the JWT signer's call log.

Exceptions become the `Err` side of a `Result`. A failed call returns no new state, so the caller's state is unchanged.

Modules, one per source component:

- `Results`: `Option`, `Result`, and the exception kinds.
- `TtlStore`: the Redis store.
- `EmailService`
- `Crypt`: abstract bcrypt, keyed as the `bcrypt` package's native binding keys the cipher from version 5.0 on. The key is every byte of the password's UTF-8 encoding followed by a NUL terminator, cut to 72 bytes. It is repeated to fill the cipher's 72-byte key.
- `UsersService`
- `Jwt`: abstract `JwtService.sign`.
- `AuthService`
- `RolesGuard`
- `JwtStrategy`
- `Scenarios`: flows across the services: the sign-up and log-in chain of the controllers, and the guard applied hypothetically to the resulting tokens.

Points where the code behaves differently from what one might expect:

- The tokens carry no `roles` claim. The payload is only `{sub, email}`.
- The guard compares one `role` field with `"admin"`. It does not intersect role sets and has no rule for open endpoints.
- The tests and a DTO mention a password-reset flow, but no implementation of it exists.
- `users.service.ts` defines no `findByEmail`, yet `AuthService.validateUser` calls it and the service tests exercise it. The model supplies it as the repository lookup `findOne({ where: { email } })` that `create` uses.
- `verifyCode` tests the stored code for JavaScript truthiness (`!storedCode`). An empty stored string is therefore refused even when the submitted code is also empty. The model keeps this, so the round-trip property assumes a non-empty code.

## Model

| member | src/source | states |
|---|---|---|
| TtlStore.Set | src/mail/service/mail.service.ts:42 | the key afterwards holds the new value expiring `ttl` seconds from now, overwriting any earlier one; all other keys and the clock are unchanged |
| TtlStore.GetAfterSet | src/mail/service/mail.service.ts:41-42 | a written value reads back for exactly `ttl` seconds and is absent from then on |
| TtlStore.GetOtherKey | src/mail/service/mail.service.ts:42 | writing a key leaves what every other key reads unchanged |
| TtlStore.SetIdempotent | src/mail/service/mail.service.ts:56 | writing the same value twice at one instant equals writing it once |
| EmailService.CodeKeyInjective | src/mail/service/mail.service.ts:42 | distinct addresses get distinct `verify:` keys |
| EmailService.DoneKeyInjective | src/mail/service/mail.service.ts:56 | distinct addresses get distinct `verify-done:` keys |
| EmailService.KeysDisjoint | src/mail/service/mail.service.ts:42-56 | no `verify:` key coincides with any `verify-done:` key |
| EmailService.VerificationEmail | src/mail/service/mail.service.ts:27-36 | the mail is addressed to the recipient, has the fixed subject and its text contains the code |
| EmailService.SendVerificationCode | src/mail/service/mail.service.ts:38-46 | `verify:<email>` holds the code with expiry now+300, overwriting any earlier code; every other key is unchanged; exactly one mail is appended, addressed to the email and containing the code |
| EmailService.VerifyCode | src/mail/service/mail.service.ts:48-57 | succeeds iff the live code under `verify:<email>` is non-empty and equals the submitted one; failure is `Unauthorized` with the fixed message; success sets `verify-done:<email>` to "true" with expiry now+600 and changes no other key and not the outbox |
| EmailService.VerifyKeepsCode | src/mail/service/mail.service.ts:51-56 | a successful check neither deletes nor alters the `verify:<email>` record |
| EmailService.RoundTrip | src/mail/service/mail.service.ts:42-56 | a code presented within 300 s of being sent is accepted, and presenting it again later in that window is accepted too |
| EmailService.VerifyIdempotent | src/mail/service/mail.service.ts:56 | repeating a successful check at the same instant gives the same success and the same state |
| EmailService.ExpiredCodeRefused | src/mail/service/mail.service.ts:49-52 | a code presented 300 s or more after sending fails `Unauthorized`, as a missing one does |
| EmailService.WrongCodeRefused | src/mail/service/mail.service.ts:51-52 | any code differing from the one sent fails `Unauthorized` |
| EmailService.ReissueOverwrites | src/mail/service/mail.service.ts:39-42 | after a second send only the newer code is accepted |
| EmailService.OtherEmailsUntouched | src/mail/service/mail.service.ts:42-56 | neither operation changes what the `verify:` or `verify-done:` keys of any other address read |
| TtlStore.Get | src/mail/service/mail.service.ts:49 | a key is read as present exactly while its expiry is still in the future, and then yields the value last written |
| Crypt.Hash | src/users/service/users.service.ts:24 | the hash keeps the given salt, has cost 10 and matches its own plaintext |
| Crypt.Compare | src/auth/service/auth.service.ts:20 | two passwords with equal keys always match; when neither contains U+0000, they match only if their keys are equal |
| Crypt.StreamDeterminesKey | src/auth/service/auth.service.ts:20 | for passwords without U+0000, the keys repeated to 72 bytes give the same bytes iff the keys are equal |
| Crypt.CompareHash | src/users/service/users.service.ts:24 | whatever the salt, a hash matches every password with the same key as its plaintext, and, when neither contains U+0000, no other; among passwords without U+0000 of at most 72 bytes, only the plaintext itself |
| Crypt.LongPasswordsTruncated | src/auth/service/auth.service.ts:20 | once a password's encoding reaches 72 bytes, whatever is appended to it leaves every comparison unchanged |
| Crypt.TruncationExample | src/auth/service/auth.service.ts:20 | two different 73-character passwords, 'a'×72 followed by "X" and by "Y", open each other's hashes |
| Crypt.NulCollisionExample | src/auth/service/auth.service.ts:20 | "" and "\0" open each other's hashes, as do 'a'×71 and 'a'×71 followed by U+0000, because the repeated keys coincide |
| Crypt.EmbeddedNulCounts | src/auth/service/auth.service.ts:20 | a U+0000 after other characters is part of the key: "a\0" does not open the hash of "a" |
| Crypt.Utf8Injective | src/users/service/users.service.ts:24 | distinct passwords have distinct UTF-8 encodings, so a password bcrypt reads in full is determined by its key |
| UsersService.ValidUnique | src/users/entity/user.entity.ts:6-10 | in a valid repository no two users share an e-mail or an id |
| UsersService.FindByEmail | src/users/service/users.service.ts:19 | returns the user filed under the e-mail when there is one and none otherwise; in a valid repository the user returned has that e-mail |
| UsersService.Create | src/users/service/users.service.ts:16-27 | fails `Conflict` with the fixed message iff the e-mail exists; otherwise the saved user has the e-mail, no roles and a cost-10 hash that matches every password whose bcrypt key equals the plaintext's, and, when neither contains U+0000, no other; it is found under its e-mail; every other e-mail finds what it found before; validity (one user per e-mail, distinct ids) is preserved |
| UsersService.SecondSignupConflicts | src/users/service/users.service.ts:19-22 | signing up again with an e-mail just registered fails `Conflict` |
| Jwt.Sign | src/auth/service/auth.service.ts:31-32 | the token carries the payload, is issued now and expires after the `expiresIn` span; the call is appended to the signer's log |
| AuthService.ExpiryConstants | src/auth/service/auth.service.ts:31-32 | `'15m'` denotes 900 seconds and `'7d'` denotes 604800 seconds |
| AuthService.ValidateUser | src/auth/service/auth.service.ts:14-26 | succeeds iff a user exists for the e-mail and the password matches its hash, then returns exactly the stored user; both failures are `Unauthorized` with the same message |
| AuthService.Login | src/auth/service/auth.service.ts:28-39 | signs exactly twice, with payload `{sub: id, email}` (no roles), first for '15m' then for '7d'; returns the access token expiring 900 s and the refresh token expiring 604800 s after issue; the two tokens differ |
| AuthService.FailuresIndistinguishable | src/auth/service/auth.service.ts:16-23 | an unknown e-mail and a wrong password produce the identical error |
| AuthService.SignupThenValidate | src/auth/service/auth.service.ts:14-26 | after sign-up, the registered password validates to the saved user; another password with the same bcrypt key validates too, and when neither contains U+0000 no other does; so when both are free of U+0000 and fit in 72 bytes, it is refused with `Unauthorized` |
| RolesGuard.CanActivate | src/auth/guard/roles.guard.ts:5-8 | allows iff a request user is present, has a `role` field, and that field is the string "admin" |
| RolesGuard.AbsentUserDenied | src/auth/guard/roles.guard.ts:7 | a request without a user is denied, not failed |
| RolesGuard.OnlyExactAdminAllowed | src/auth/guard/roles.guard.ts:7 | whatever the other fields hold, the request is allowed iff the role value is exactly the string "admin" |
| RolesGuard.CaseVariantsDenied | src/auth/guard/roles.guard.ts:7 | "Admin" and "ADMIN" are denied |
| JwtStrategy.Validate | src/auth/strategy/jwt.strategy.ts:15-18 | the request user has exactly the fields `userId` and `email`, taken from `sub` and `email` |
| JwtStrategy.GuardDeniesValidatedUser | src/auth/strategy/jwt.strategy.ts:17 | were the roles guard applied to a route authenticated by this strategy, it would deny the request user built from any token, since that user has no `role` field |
| Scenarios.SignupLoginGuard | src/auth/controller/auth.controller.ts:12-13 | after sign-up, the credentials validate and login's tokens name the new user; were the guard applied to the request user built from either token, it would deny it |
| Scenarios.VerificationExample | src/mail/service/mail.service.spec.ts:59-96 | code "123456" for "test@example.com" is accepted a minute after sending and leaves the flag "true", while "999999" is refused |

## Left out

- SMTP transport construction and the `sendMail` call. Delivery is I/O; a sent mail is modelled as an outbox append, and transport failures are not modelled.
- The Redis client implementation and the code generator. The store's TTL semantics are assumed: a key is absent once the clock reaches its expiry. The generated code and the bcrypt salt are parameters. Store unavailability is not modelled.
- bcrypt internals. A hash records its plaintext, salt and cost, and `Compare` checks that the two passwords fill the cipher's 72-byte key with the same bytes, built as the `Crypt` module describes. The string format of the stored hash (version, cost and salt fields) is not modelled. That the stored password is never the plaintext itself holds by typing: the `password` field has the hash type.
- JWT signatures, signature verification and the full `ms` time-span syntax. Only `<digits><unit>` spans with units s, m, h and d are read, which covers the two spans the service passes.
- The password-reset workflow and `updatePassword`. Only tests and a DTO exist for them; there is no implementation.
- Controllers (cookies, logout, HTTP responses), modules (dependency wiring) and the passport plumbing of `JwtStrategy`, apart from `validate`. These are framework glue.
- JwtStrategy.Validate: the `console.log(payload)` call before the object is built is not modelled; it is logging output only.
- UsersService.FindByEmail: `users.service.ts` defines no `findByEmail`, although `AuthService.validateUser` calls it. The model supplies the repository lookup `findOne({ where: { email } })` that `create` performs, which is what the service tests expect of it.
- DTO validation decorators and TypeORM mapping annotations, which are declarative library metadata.
- `created_at` and `updated_at` columns, which no core operation reads.
- Crypt.Compare: a JavaScript string may hold unpaired UTF-16 surrogates, which are encoded as U+FFFD before hashing, so different strings of that kind can collide. A Dafny string holds only Unicode scalar values and cannot represent them, so these passwords are outside the model. The same limit applies to `Crypt.CompareHash`, `UsersService.Create` and `AuthService.SignupThenValidate`. The model also assumes version 5.0 or later of the `bcrypt` package, whose version the code does not pin. Before 5.0 the binding measured the password with `strlen`, so a password ended at its first U+0000 ("a\0" then opened the hash of "a"). For passwords without U+0000, every conclusion is the same under either version.
- AuthService.Login: the signer's clock is read once per `login`, so both tokens get the same `iat`. jsonwebtoken reads the clock on each `sign` call, so the refresh token's `iat` (and its `exp`) may be one second later. No stated property depends on this: the two tokens differ either way.
- Concurrent requests racing on the store, and asynchronous scheduling.
- "Neither `validateUser` nor `login` modifies the repository" is not stated as a contract. It holds by construction, because neither function returns a repository.

=== FILE: auth_service.dfy ===
/** `AuthService`: credential check and token issuance. */
module AuthService {
  import opened Results
  import opened Crypt
  import opened UsersService
  import opened Jwt

  /** Message of the exception raised for an unknown e-mail or a wrong password. */
  const InvalidCredentialsMessage := "이메일 또는 비밀번호가 올바르지 않습니다."
  /** `expiresIn` of the access token. */
  const AccessExpiresIn := "15m"
  /** `expiresIn` of the refresh token. */
  const RefreshExpiresIn := "7d"

  /** The two `expiresIn` options denote fifteen minutes and seven days. */
  lemma ExpiryConstants()
    ensures ExpirySeconds(AccessExpiresIn) == Some(15 * 60)
    ensures ExpirySeconds(RefreshExpiresIn) == Some(7 * 24 * 60 * 60)
  {
    assert AccessExpiresIn[..2] == "15";
    assert DigitsValue("15") == 15 by {
      assert "15"[..1] == "1";
      assert "1"[..0] == "";
    }
    assert RefreshExpiresIn[..1] == "7";
    assert DigitsValue("7") == 7 by {
      assert "7"[..0] == "";
    }
  }

  /** `validateUser(email, password)`. */
  function ValidateUser(repo: Repo, email: string, password: string): (r: Result<User>)
    ensures r.Ok? <==> email in repo.users && Compare(password, repo.users[email].password)
    ensures r.Ok? ==> FindByEmail(repo, email) == Some(r.value)
    ensures r.Err? ==> r.error == Unauthorized(InvalidCredentialsMessage)
  {
    match FindByEmail(repo, email)
    case None => Err(Unauthorized(InvalidCredentialsMessage))
    case Some(user) =>
      if !Compare(password, user.password) then Err(Unauthorized(InvalidCredentialsMessage))
      else Ok(user)
  }

  /** The access and refresh tokens `login` returns. */
  datatype TokenPair = TokenPair(accessToken: Token, refreshToken: Token)

  /** The signer after `login`, and the tokens it returned. */
  datatype LoggedIn = LoggedIn(signer: Signer, tokens: TokenPair)

  /** `login(user)`: one payload, signed first for fifteen minutes, then for seven days. */
  function Login(signer: Signer, user: User): (r: LoggedIn)
    ensures var payload := Payload(user.id, user.email);
      r.signer.calls == signer.calls + [SignCall(payload, "15m"), SignCall(payload, "7d")]
    ensures r.signer.now == signer.now
    ensures r.tokens.accessToken.payload == Payload(user.id, user.email)
    ensures r.tokens.refreshToken.payload == Payload(user.id, user.email)
    ensures r.tokens.accessToken.iat == signer.now && r.tokens.accessToken.exp == signer.now + 900
    ensures r.tokens.refreshToken.iat == signer.now && r.tokens.refreshToken.exp == signer.now + 604800
    ensures r.tokens.accessToken != r.tokens.refreshToken
  {
    ExpiryConstants();
    var payload := Payload(user.id, user.email);
    var access := Sign(signer, payload, AccessExpiresIn);
    var refresh := Sign(access.signer, payload, RefreshExpiresIn);
    LoggedIn(refresh.signer, TokenPair(access.token, refresh.token))
  }

  /** An unknown e-mail and a wrong password are reported identically, so a
      caller cannot tell which of the two it was. */
  lemma FailuresIndistinguishable(repo: Repo, email: string, password: string,
                                  repo': Repo, email': string, password': string)
    requires email !in repo.users
    requires email' in repo'.users && !Compare(password', repo'.users[email'].password)
    ensures ValidateUser(repo, email, password) == ValidateUser(repo', email', password')
  {
  }

  /** After sign-up, the same e-mail and password log in as the saved user. Any
      other password with the same bcrypt key logs in too, and when neither holds
      U+0000 no other does, so among passwords bcrypt reads in full every other
      one is refused. */
  lemma SignupThenValidate(repo: Repo, email: string, password: string, salt: nat, other: string)
    requires Create(repo, email, password, salt).Ok?
    ensures var created := Create(repo, email, password, salt).value;
      ValidateUser(created.repo, email, password) == Ok(created.user) &&
      (KeyBytes(other) == KeyBytes(password) ==> ValidateUser(created.repo, email, other).Ok?)
    ensures var created := Create(repo, email, password, salt).value;
      NulFree(password) && NulFree(other) ==>
      (ValidateUser(created.repo, email, other).Ok? <==> KeyBytes(other) == KeyBytes(password))
    ensures var created := Create(repo, email, password, salt).value;
      FitsKey(password) && FitsKey(other) && other != password ==>
      ValidateUser(created.repo, email, other) == Err(Unauthorized(InvalidCredentialsMessage))
  {
    CompareHash(password, other, salt);
  }
}

=== FILE: crypt.dfy ===
/** An abstract stand-in for bcrypt.

    A hash records the secret it was made from, the random salt and the cost
    factor. The cipher is keyed as the native binding of `bcrypt` 5.0 and
    later keys it: the password's UTF-8 encoding, every byte of it, followed
    by a NUL terminator; at most 72 of those bytes are kept; and the result
    is repeated until 72 bytes are filled. `Compare` accepts exactly the
    passwords that fill those 72 bytes as the hashed one does, whatever the
    salt; for passwords without U+0000 that is exactly the passwords with the
    same key.
 */
module Crypt {

  /** The cost factor passed to `bcrypt.hash`. */
  const Cost: nat := 10

  /** The number of key bytes bcrypt reads. */
  const MaxKeyBytes: nat := 72

  type byte = x: int | 0 <= x < 256

  /** A salted one-way hash as stored in the `password` column. */
  datatype PasswordHash = PasswordHash(secret: string, salt: nat, cost: nat)

  /** The UTF-8 encoding of one character (section 3 of RFC 3629). */
  function EncodeChar(c: char): (bytes: seq<byte>)
    ensures 1 <= |bytes| <= 4
  {
    var n := c as int;
    if n < 0x80 then [n]
    else if n < 0x800 then [0xC0 + n / 64, 0x80 + n % 64]
    else if n < 0x10000 then [0xE0 + n / 4096, 0x80 + n / 64 % 64, 0x80 + n % 64]
    else [0xF0 + n / 262144, 0x80 + n / 4096 % 64, 0x80 + n / 64 % 64, 0x80 + n % 64]
  }

  /** The UTF-8 encoding of a string. */
  function Utf8(s: string): seq<byte>
    decreases |s|
  {
    if s == [] then [] else EncodeChar(s[0]) + Utf8(s[1..])
  }

  /** The string contains no U+0000. */
  predicate NulFree(s: string)
  {
    forall i :: 0 <= i < |s| ==> s[i] != '\0'
  }

  /** The key bcrypt derives from a password: its encoded bytes with the
      terminating NUL, cut to 72 bytes. */
  function KeyBytes(s: string): (k: seq<byte>)
    ensures 1 <= |k| <= MaxKeyBytes
  {
    var bytes := Utf8(s) + [0];
    if |bytes| <= MaxKeyBytes then bytes else bytes[..MaxKeyBytes]
  }

  /** The 72 bytes the cipher reads from a key, cycling through it. */
  function KeyStream(k: seq<byte>): (r: seq<byte>)
    requires |k| >= 1
    ensures |r| == MaxKeyBytes
  {
    seq(MaxKeyBytes, i requires 0 <= i < MaxKeyBytes => k[i % |k|])
  }

  /** The password is one bcrypt reads in full: no U+0000 and at most 72 bytes. */
  predicate FitsKey(s: string)
  {
    NulFree(s) && |Utf8(s)| <= MaxKeyBytes
  }

  /** `bcrypt.hash(plain, 10)` with `salt` as the generated salt. */
  function Hash(plain: string, salt: nat): (h: PasswordHash)
    ensures h.salt == salt && h.cost == Cost
    ensures Compare(plain, h)
  {
    PasswordHash(plain, salt, Cost)
  }

  /** `bcrypt.compare(plain, hashed)`: the two passwords fill the cipher's key
      with the same bytes. Equal keys always do; when neither password holds
      U+0000, only equal keys do. */
  predicate Compare(plain: string, hashed: PasswordHash)
    ensures KeyBytes(plain) == KeyBytes(hashed.secret) ==> Compare(plain, hashed)
    ensures NulFree(plain) && NulFree(hashed.secret) ==>
      (Compare(plain, hashed) <==> KeyBytes(plain) == KeyBytes(hashed.secret))
  {
    StreamDeterminesKey(plain, hashed.secret);
    KeyStream(KeyBytes(plain)) == KeyStream(KeyBytes(hashed.secret))
  }

  /** The first byte of a character's encoding fixes the encoding's length. */
  lemma LeadByteFixesLength(c: char, d: char)
    requires EncodeChar(c)[0] == EncodeChar(d)[0]
    ensures |EncodeChar(c)| == |EncodeChar(d)|
  {
  }

  /** A non-negative number is recovered from its base-64 digits. */
  lemma Digits64(n: int)
    requires n >= 0
    ensures n == n / 64 * 64 + n % 64
    ensures n / 64 / 64 == n / 4096 && n / 4096 / 64 == n / 262144
    ensures n == n / 4096 * 4096 + n / 64 % 64 * 64 + n % 64
    ensures n == n / 262144 * 262144 + n / 4096 % 64 * 4096 + n / 64 % 64 * 64 + n % 64
  {
    var q := n / 64;
    assert q == q / 64 * 64 + q % 64;
    var r := q / 64;
    assert r == r / 64 * 64 + r % 64;
  }

  /** Distinct characters have distinct encodings. */
  lemma EncodeCharInjective(c: char, d: char)
    requires EncodeChar(c) == EncodeChar(d)
    ensures c == d
  {
    var n, m := c as int, d as int;
    Digits64(n);
    Digits64(m);
    assert n == m;
  }

  /** Distinct strings have distinct encodings. */
  lemma {:induction false} Utf8Injective(s: string, t: string)
    requires Utf8(s) == Utf8(t)
    ensures s == t
    decreases |s|
  {
    if s != [] && t != [] {
      var a, b := EncodeChar(s[0]), EncodeChar(t[0]);
      assert Utf8(s) == a + Utf8(s[1..]);
      assert Utf8(t) == b + Utf8(t[1..]);
      assert a[0] == Utf8(s)[0] == b[0];
      LeadByteFixesLength(s[0], t[0]);
      assert a == Utf8(s)[..|a|] == b;
      EncodeCharInjective(s[0], t[0]);
      assert Utf8(s[1..]) == Utf8(s)[|a|..] == Utf8(t[1..]);
      Utf8Injective(s[1..], t[1..]);
      assert s == [s[0]] + s[1..];
      assert t == [t[0]] + t[1..];
    }
  }

  /** Encoding distributes over concatenation. */
  lemma {:induction false} Utf8Append(s: string, t: string)
    ensures Utf8(s + t) == Utf8(s) + Utf8(t)
    decreases |s|
  {
    if s != [] {
      assert (s + t)[0] == s[0];
      assert (s + t)[1..] == s[1..] + t;
      Utf8Append(s[1..], t);
    } else {
      assert s + t == t;
    }
  }

  /** The encoding of a string without U+0000 has no zero byte. */
  lemma {:induction false} NulFreeHasNoZeroByte(s: string)
    requires NulFree(s)
    ensures forall i :: 0 <= i < |Utf8(s)| ==> Utf8(s)[i] != 0
    decreases |s|
  {
    if s != [] {
      NulFreeHasNoZeroByte(s[1..]);
      assert Utf8(s) == EncodeChar(s[0]) + Utf8(s[1..]);
    }
  }

  /** The shape of the key of a password without U+0000: all bytes but the
      last are non-zero, and the last is the NUL terminator unless the key was
      cut at 72 bytes. */
  ghost predicate KeyShaped(k: seq<byte>)
  {
    && 1 <= |k| <= MaxKeyBytes
    && (forall i :: 0 <= i < |k| - 1 ==> k[i] != 0)
    && (k[|k| - 1] == 0 || |k| == MaxKeyBytes)
  }

  lemma KeyShape(s: string)
    requires NulFree(s)
    ensures KeyShaped(KeyBytes(s))
  {
    NulFreeHasNoZeroByte(s);
  }

  /** The stream starts with the key itself. */
  lemma StreamStartsWithKey(k: seq<byte>, i: int)
    requires 1 <= |k| <= MaxKeyBytes && 0 <= i < |k|
    ensures KeyStream(k)[i] == k[i]
  {
  }

  /** Distinct keys fill the cipher differently: the first zero byte of the
      stream marks the key's end, and the stream's first bytes are the key. */
  lemma StreamInjective(k: seq<byte>, l: seq<byte>)
    requires KeyShaped(k) && KeyShaped(l) && |k| <= |l|
    requires KeyStream(k) == KeyStream(l)
    ensures k == l
  {
    if |k| < |l| {
      StreamStartsWithKey(k, |k| - 1);
      StreamStartsWithKey(l, |k| - 1);
      assert false;
    }
    forall i | 0 <= i < |k|
      ensures k[i] == l[i]
    {
      StreamStartsWithKey(k, i);
      StreamStartsWithKey(l, i);
    }
  }

  /** For passwords without U+0000, the 72 bytes the cipher reads determine the key. */
  lemma StreamDeterminesKey(s: string, t: string)
    ensures NulFree(s) && NulFree(t) ==>
      (KeyStream(KeyBytes(s)) == KeyStream(KeyBytes(t)) <==> KeyBytes(s) == KeyBytes(t))
  {
    var k, l := KeyBytes(s), KeyBytes(t);
    if NulFree(s) && NulFree(t) && KeyStream(k) == KeyStream(l) {
      KeyShape(s);
      KeyShape(t);
      if |k| <= |l| { StreamInjective(k, l); } else { StreamInjective(l, k); }
    }
  }

  /** A password bcrypt reads in full with fewer than 72 bytes keeps its NUL
      terminator, so its key differs from that of a full 72-byte password. */
  lemma ShortKeyDiffersFromFull(short: string, full: string)
    requires FitsKey(short) && FitsKey(full)
    requires |Utf8(short)| < MaxKeyBytes && |Utf8(full)| == MaxKeyBytes
    ensures KeyBytes(short) != KeyBytes(full)
  {
    NulFreeHasNoZeroByte(full);
    assert KeyBytes(full) == Utf8(full);
    if |Utf8(short)| + 1 == MaxKeyBytes {
      assert KeyBytes(short)[MaxKeyBytes - 1] == 0;
    }
  }

  /** A hash opens with every password that has the same key as its
      plaintext, and, when neither holds U+0000, with no other; among
      passwords bcrypt reads in full, only with the plaintext itself. */
  lemma CompareHash(plain: string, candidate: string, salt: nat)
    ensures KeyBytes(candidate) == KeyBytes(plain) ==> Compare(candidate, Hash(plain, salt))
    ensures NulFree(plain) && NulFree(candidate) ==>
      (Compare(candidate, Hash(plain, salt)) <==> KeyBytes(candidate) == KeyBytes(plain))
    ensures FitsKey(plain) && FitsKey(candidate) ==>
      (Compare(candidate, Hash(plain, salt)) <==> candidate == plain)
  {
    if FitsKey(plain) && FitsKey(candidate) && Compare(candidate, Hash(plain, salt)) {
      var p, c := Utf8(plain), Utf8(candidate);
      NulFreeHasNoZeroByte(plain);
      NulFreeHasNoZeroByte(candidate);
      if |p| < MaxKeyBytes && |c| < MaxKeyBytes {
        assert p == KeyBytes(plain)[..|p|];
        assert c == KeyBytes(candidate)[..|c|];
      } else if |p| < MaxKeyBytes {
        ShortKeyDiffersFromFull(plain, candidate);
        assert false;
      } else if |c| < MaxKeyBytes {
        ShortKeyDiffersFromFull(candidate, plain);
        assert false;
      } else {
        assert p == KeyBytes(plain);
        assert c == KeyBytes(candidate);
      }
      assert p == c;
      Utf8Injective(candidate, plain);
    }
  }

  /** Once a password's encoding reaches 72 bytes, anything appended to it is
      ignored: the longer password opens the same hashes. */
  lemma LongPasswordsTruncated(prefix: string, rest: string, hashed: PasswordHash)
    requires |Utf8(prefix)| >= MaxKeyBytes
    ensures Compare(prefix + rest, hashed) <==> Compare(prefix, hashed)
  {
    Utf8Append(prefix, rest);
    assert (Utf8(prefix + rest) + [0])[..MaxKeyBytes] == (Utf8(prefix) + [0])[..MaxKeyBytes];
  }

  /** Two different 73-character passwords that agree on their first 72
      characters open each other's hashes. */
  lemma TruncationExample(salt: nat)
    ensures var a72 := seq(72, _ => 'a');
      a72 + "X" != a72 + "Y" && Compare(a72 + "Y", Hash(a72 + "X", salt))
  {
    var a72 := seq(72, _ => 'a');
    assert (a72 + "X")[72] != (a72 + "Y")[72];
    AsciiLength(a72);
    LongPasswordsTruncated(a72, "X", Hash(a72 + "X", salt));
    LongPasswordsTruncated(a72, "Y", Hash(a72 + "X", salt));
  }

  /** U+0000 inside a password is key material, but the key is repeated, so
      some passwords holding it still collide: "" and "\0" (keys of one and two
      zero bytes) open each other's hashes, and so do 'a'×71 and 'a'×71
      followed by U+0000 (whose terminator falls past the 72nd byte). */
  lemma NulCollisionExample(salt: nat)
    ensures Compare("\0", Hash("", salt))
    ensures var a71 := seq(71, _ => 'a');
      a71 + "\0" != a71 && Compare(a71 + "\0", Hash(a71, salt))
  {
    assert Utf8("\0") == [0];
    assert KeyStream(KeyBytes("\0")) == KeyStream(KeyBytes(""));
    var a71 := seq(71, _ => 'a');
    assert |a71 + "\0"| != |a71|;
    Utf8Append(a71, "\0");
    AsciiLength(a71);
  }

  /** A U+0000 after other characters is not where the password ends: "a" and
      "a\0" have keys 61 00 and 61 00 00, whose streams differ at the third
      byte, so neither opens the other's hash. */
  lemma EmbeddedNulCounts(salt: nat)
    ensures !Compare("a\0", Hash("a", salt))
  {
    assert Utf8("a") == [0x61];
    assert Utf8("a\0") == [0x61, 0];
    assert KeyStream(KeyBytes("a\0"))[2] == 0;
    assert KeyStream(KeyBytes("a"))[2] == 0x61;
  }

  /** A string of ASCII characters encodes to one byte per character. */
  lemma {:induction false} AsciiLength(s: string)
    requires forall i :: 0 <= i < |s| ==> s[i] as int < 0x80
    ensures |Utf8(s)| == |s|
    decreases |s|
  {
    if s != [] {
      AsciiLength(s[1..]);
    }
  }
}

=== FILE: email_service.dfy ===
/** `EmailService`: issuing and checking e-mail verification codes.

    The service state is the TTL store plus an outbox standing for the mails
    handed to the SMTP transport. The random code is a parameter, since the
    code generator is not part of this model.
 */
module EmailService {
  import opened Results
  import opened TtlStore

  /** Lifetime of an issued code, in seconds (five minutes). */
  const CodeTtl: nat := 300
  /** Lifetime of the "verification done" flag, in seconds (ten minutes). */
  const DoneTtl: nat := 600
  /** The value stored under the "verification done" key. */
  const DoneValue := "true"
  /** Subject line of the verification mail ("e-mail verification code"). */
  const Subject := "이메일 인증 코드"
  /** Message of the exception raised for a missing, expired or wrong code. */
  const InvalidCodeMessage := "인증 코드가 올바르지 않거나 만료되었습니다."

  /** Configuration read by the service: the SMTP account used as sender. */
  datatype Config = Config(smtpUser: string)

  /** The mail options passed to `sendMail`. */
  datatype Mail = Mail(from: string, to: string, subject: string, text: string)

  /** The store the service writes and the mails it has sent, oldest first. */
  datatype State = State(store: Store, outbox: seq<Mail>)

  /** Store key of the code issued to `email`. */
  function CodeKey(email: string): string
  {
    "verify:" + email
  }

  /** Store key of the flag recording that `email` passed verification. */
  function DoneKey(email: string): string
  {
    "verify-done:" + email
  }

  /** `needle` occurs as a contiguous part of `hay`. */
  ghost predicate Contains(hay: string, needle: string)
  {
    exists i, j :: 0 <= i <= j <= |hay| && hay[i..j] == needle
  }

  /** Codes for distinct addresses live under distinct keys. */
  lemma CodeKeyInjective(a: string, b: string)
    requires CodeKey(a) == CodeKey(b)
    ensures a == b
  {
    assert a == CodeKey(a)[7..];
    assert b == CodeKey(b)[7..];
  }

  /** Flags for distinct addresses live under distinct keys. */
  lemma DoneKeyInjective(a: string, b: string)
    requires DoneKey(a) == DoneKey(b)
    ensures a == b
  {
    assert a == DoneKey(a)[12..];
    assert b == DoneKey(b)[12..];
  }

  /** No code key is ever a flag key: the prefixes part at their seventh character. */
  lemma KeysDisjoint(a: string, b: string)
    ensures CodeKey(a) != DoneKey(b)
  {
    assert CodeKey(a)[6] == ':';
    assert DoneKey(b)[6] == '-';
  }

  /** `sendVerificationEmail(to, code)`: the mail announcing `code` to `to`. */
  function VerificationEmail(config: Config, to: string, code: string): (m: Mail)
    ensures m.to == to
    ensures m.subject == Subject
    ensures Contains(m.text, code)
  {
    var prefix := "인증 코드는 ";
    var text := prefix + code + "입니다.";
    assert text[|prefix|..|prefix| + |code|] == code;
    Mail("\"No Reply\" <" + config.smtpUser + ">", to, Subject, text)
  }

  /** `sendVerificationCode(email)` with `code` as the generated code. */
  function SendVerificationCode(config: Config, st: State, email: string, code: string): (r: State)
    ensures r.store.now == st.store.now
    ensures CodeKey(email) in r.store.entries
    ensures r.store.entries[CodeKey(email)] == Entry(code, st.store.now + CodeTtl)
    ensures UnchangedExcept(st.store, r.store, {CodeKey(email)})
    ensures |r.outbox| == |st.outbox| + 1 && r.outbox[..|st.outbox|] == st.outbox
    ensures r.outbox[|st.outbox|].to == email
    ensures Contains(r.outbox[|st.outbox|].text, code)
  {
    var store := Set(st.store, CodeKey(email), code, CodeTtl);
    State(store, st.outbox + [VerificationEmail(config, email, code)])
  }

  /** `verifyCode(email, code)`. The stored code is tested for JavaScript
      truthiness first, so an empty stored string fails like a missing one. */
  function VerifyCode(st: State, email: string, code: string): (r: Result<State>)
    ensures r.Ok? <==> code != "" && Get(st.store, CodeKey(email)) == Some(code)
    ensures r.Err? ==> r.error == Unauthorized(InvalidCodeMessage)
    ensures r.Ok? ==> r.value.outbox == st.outbox && r.value.store.now == st.store.now
    ensures r.Ok? ==> DoneKey(email) in r.value.store.entries
    ensures r.Ok? ==> r.value.store.entries[DoneKey(email)] == Entry(DoneValue, st.store.now + DoneTtl)
    ensures r.Ok? ==> UnchangedExcept(st.store, r.value.store, {DoneKey(email)})
  {
    var stored := Get(st.store, CodeKey(email));
    if stored.None? || stored.value == "" || stored.value != code then
      Err(Unauthorized(InvalidCodeMessage))
    else
      Ok(st.(store := Set(st.store, DoneKey(email), DoneValue, DoneTtl)))
  }

  /** The passage of `dt` seconds. */
  function Wait(st: State, dt: nat): (r: State)
    ensures r.outbox == st.outbox && r.store == Tick(st.store, dt)
  {
    st.(store := Tick(st.store, dt))
  }

  /** A successful check leaves the code record itself in place. */
  lemma VerifyKeepsCode(st: State, email: string, code: string)
    requires VerifyCode(st, email, code).Ok?
    ensures var st' := VerifyCode(st, email, code).value;
      CodeKey(email) in st'.store.entries &&
      st'.store.entries[CodeKey(email)] == st.store.entries[CodeKey(email)]
  {
    KeysDisjoint(email, email);
  }

  /** Issuing a code and presenting it before its TTL runs out succeeds, and
      presenting it again at any later moment of that window succeeds too. */
  lemma RoundTrip(config: Config, st: State, email: string, code: string, dt: nat, dt2: nat)
    requires code != ""
    requires dt + dt2 < CodeTtl
    ensures var sent := Wait(SendVerificationCode(config, st, email, code), dt);
      var first := VerifyCode(sent, email, code);
      first.Ok? && VerifyCode(Wait(first.value, dt2), email, code).Ok?
  {
    var sent := Wait(SendVerificationCode(config, st, email, code), dt);
    var first := VerifyCode(sent, email, code);
    VerifyKeepsCode(sent, email, code);
  }

  /** Repeating a successful check at the same instant changes nothing further. */
  lemma VerifyIdempotent(st: State, email: string, code: string)
    requires VerifyCode(st, email, code).Ok?
    ensures VerifyCode(VerifyCode(st, email, code).value, email, code) == VerifyCode(st, email, code)
  {
    VerifyKeepsCode(st, email, code);
    SetIdempotent(st.store, DoneKey(email), DoneValue, DoneTtl);
  }

  /** A code presented once its TTL has run out is refused like one never issued. */
  lemma ExpiredCodeRefused(config: Config, st: State, email: string, code: string, dt: nat)
    requires dt >= CodeTtl
    ensures VerifyCode(Wait(SendVerificationCode(config, st, email, code), dt), email, code)
         == Err(Unauthorized(InvalidCodeMessage))
  {
  }

  /** Any code other than the one last issued is refused. */
  lemma WrongCodeRefused(config: Config, st: State, email: string, code: string, other: string, dt: nat)
    requires other != code
    ensures VerifyCode(Wait(SendVerificationCode(config, st, email, code), dt), email, other)
         == Err(Unauthorized(InvalidCodeMessage))
  {
  }

  /** Re-issuing overwrites: only the newer code is accepted afterwards. */
  lemma ReissueOverwrites(config: Config, st: State, email: string, earlier: string, code: string)
    requires earlier != code && code != ""
    ensures var st' := SendVerificationCode(config, SendVerificationCode(config, st, email, earlier), email, code);
      VerifyCode(st', email, earlier).Err? && VerifyCode(st', email, code).Ok?
  {
  }

  /** Both operations leave every record of every other address as it was. */
  lemma OtherEmailsUntouched(config: Config, st: State, email: string, code: string, other: string)
    requires other != email
    ensures var sent := SendVerificationCode(config, st, email, code);
      Get(sent.store, CodeKey(other)) == Get(st.store, CodeKey(other)) &&
      Get(sent.store, DoneKey(other)) == Get(st.store, DoneKey(other))
    ensures VerifyCode(st, email, code).Ok? ==>
      var checked := VerifyCode(st, email, code).value;
      Get(checked.store, CodeKey(other)) == Get(st.store, CodeKey(other)) &&
      Get(checked.store, DoneKey(other)) == Get(st.store, DoneKey(other))
  {
    if CodeKey(other) == CodeKey(email) { CodeKeyInjective(other, email); }
    if DoneKey(other) == DoneKey(email) { DoneKeyInjective(other, email); }
    KeysDisjoint(email, other);
    KeysDisjoint(other, email);
  }
}

=== FILE: jwt.dfy ===
/** An abstract stand-in for `JwtService.sign`.

    Signing is modelled as building the token's claims: the payload, the
    issue time `iat` and the expiry `exp` (the registered claims of sections
    4.1.6 and 4.1.4 of RFC 7519), with `exp` computed from the `expiresIn`
    option. The signature itself is not modelled. The signer keeps the log of
    its calls, in order, so that callers can be specified by the calls they make.
 */
module Jwt {
  import opened Results

  /** The payload the service signs: `sub` (section 4.1.2 of RFC 7519) and `email`. */
  datatype Payload = Payload(sub: nat, email: string)

  /** A signed token: its payload and its registered time claims, in seconds. */
  datatype Token = Token(payload: Payload, iat: int, exp: int)

  /** One call `sign(payload, { expiresIn })`. */
  datatype SignCall = SignCall(payload: Payload, expiresIn: string)

  /** The signing service: the clock it stamps tokens with and its call log. */
  datatype Signer = Signer(now: int, calls: seq<SignCall>)

  /** The signer after a call, and the token the call produced. */
  datatype Signed = Signed(signer: Signer, token: Token)

  predicate AllDigits(s: string)
  {
    forall i :: 0 <= i < |s| ==> '0' <= s[i] <= '9'
  }

  /** The number a string of decimal digits denotes. */
  function DigitsValue(s: string): nat
    requires AllDigits(s)
    decreases |s|
  {
    if |s| == 0 then 0
    else DigitsValue(s[..|s| - 1]) * 10 + (s[|s| - 1] as int - '0' as int)
  }

  /** Seconds per unit of a time-span suffix. */
  function UnitSeconds(unit: char): Option<nat>
  {
    match unit
    case 's' => Some(1)
    case 'm' => Some(60)
    case 'h' => Some(3600)
    case 'd' => Some(86400)
    case _ => None
  }

  /** The length in seconds of an `expiresIn` string of the form
      `<digits><unit>`, or none when the string has another form. */
  function ExpirySeconds(span: string): (r: Option<nat>)
    ensures r.Some? ==> 2 <= |span| && UnitSeconds(span[|span| - 1]).Some?
  {
    if |span| < 2 || !AllDigits(span[..|span| - 1]) then None
    else match UnitSeconds(span[|span| - 1])
      case None => None
      case Some(unit) => Some(DigitsValue(span[..|span| - 1]) * unit)
  }

  /** `sign(payload, { expiresIn })`: a token issued now that expires
      `expiresIn` later; the call is appended to the log. The library throws
      for an `expiresIn` it cannot read, so callers must pass a readable one. */
  function Sign(signer: Signer, payload: Payload, expiresIn: string): (r: Signed)
    requires ExpirySeconds(expiresIn).Some?
    ensures r.signer.now == signer.now
    ensures r.signer.calls == signer.calls + [SignCall(payload, expiresIn)]
    ensures r.token.payload == payload && r.token.iat == signer.now
    ensures r.token.exp - r.token.iat == ExpirySeconds(expiresIn).value
  {
    var token := Token(payload, signer.now, signer.now + ExpirySeconds(expiresIn).value);
    Signed(Signer(signer.now, signer.calls + [SignCall(payload, expiresIn)]), token)
  }
}

=== FILE: jwt_strategy.dfy ===
/** `JwtStrategy.validate`: the request user built from a verified token.
    The strategy is not registered with any module, so nothing installs this
    user on a request; it is modelled to show what the roles guard would see. */
module JwtStrategy {
  import opened Results
  import opened Jwt
  import opened RolesGuard

  /** `validate(payload)`: an object with `userId` and `email` and nothing else. */
  function Validate(payload: Payload): (user: RequestUser)
    ensures user.Keys == {"userId", "email"}
    ensures user["userId"] == JsNumber(payload.sub) && user["email"] == JsString(payload.email)
  {
    map["userId" := JsNumber(payload.sub), "email" := JsString(payload.email)]
  }

  /** The user built from any token has no `role` field, so the roles guard,
      were it applied to a route authenticated this way, would deny every request. */
  lemma GuardDeniesValidatedUser(payload: Payload)
    ensures !CanActivate(Some(Validate(payload)))
  {
  }
}

=== FILE: results.dfy ===
/** Failure-carrying result types shared by the services.

    The services raise NestJS HTTP exceptions; each exception class the core
    throws becomes one constructor of `Error`, carrying the exception's message.
 */
module Results {

  /** A value that may be absent (a `null` lookup result, an expired key). */
  datatype Option<+T> = None | Some(value: T)

  /** The exceptions the core raises: `UnauthorizedException` and `ConflictException`. */
  datatype Error = Unauthorized(message: string) | Conflict(message: string)

  /** Either the operation's value or the exception it raised. */
  datatype Result<+T> = Ok(value: T) | Err(error: Error)
}

=== FILE: roles_guard.dfy ===
/** `RolesGuard` and the request user it inspects. */
module RolesGuard {
  import opened Results

  /** The JavaScript values that occur in a request user's fields. */
  datatype JsValue = JsString(s: string) | JsNumber(n: int)

  /** The object in `request.user`: field names to values. */
  type RequestUser = map<string, JsValue>

  /** The role the guard admits. */
  const AdminRole := "admin"

  /** The `role` field of the request user; absent for a missing user or field,
      as JavaScript's `user?.role` is then `undefined`. */
  function RoleOf(user: Option<RequestUser>): Option<JsValue>
  {
    if user.Some? && "role" in user.value then Some(user.value["role"]) else None
  }

  /** `canActivate`: a strict comparison of the request user's role with "admin". */
  function CanActivate(user: Option<RequestUser>): (allow: bool)
    ensures allow <==> user.Some? && "role" in user.value && user.value["role"] == JsString(AdminRole)
  {
    RoleOf(user) == Some(JsString(AdminRole))
  }

  /** A request without a user is denied, not failed. */
  lemma AbsentUserDenied()
    ensures !CanActivate(None)
  {
  }

  /** Every role value except the exact string "admin" is denied, whatever the
      other fields hold: the comparison is case-sensitive and does not convert types. */
  lemma OnlyExactAdminAllowed(fields: RequestUser, role: JsValue)
    ensures CanActivate(Some(fields["role" := role])) <==> role == JsString("admin")
  {
  }

  /** Case variants of "admin" are denied. */
  lemma CaseVariantsDenied(fields: RequestUser)
    ensures !CanActivate(Some(fields["role" := JsString("Admin")]))
    ensures !CanActivate(Some(fields["role" := JsString("ADMIN")]))
  {
    OnlyExactAdminAllowed(fields, JsString("Admin"));
    OnlyExactAdminAllowed(fields, JsString("ADMIN"));
  }
}

=== FILE: scenarios.dfy ===
/** Flows across the services. The sign-up and log-in steps chain as
    `AuthController.login` chains them; the guard step states what `RolesGuard`
    would decide if it were applied to a route authenticated by `JwtStrategy`,
    which the application modules do not do. */
module Scenarios {
  import opened Results
  import opened TtlStore
  import opened EmailService
  import opened UsersService
  import opened AuthService
  import opened Jwt
  import opened RolesGuard
  import opened JwtStrategy

  /** Sign-up, then log-in: the tokens name the new user. Were the roles guard
      applied to a request carrying either token, it would deny the request user
      the strategy builds from it. */
  lemma SignupLoginGuard(repo: Repo, email: string, password: string, salt: nat, signer: Signer)
    requires Create(repo, email, password, salt).Ok?
    ensures var created := Create(repo, email, password, salt).value;
      var checked := ValidateUser(created.repo, email, password);
      checked.Ok? &&
      var tokens := Login(signer, checked.value).tokens;
      tokens.accessToken.payload == Payload(created.user.id, email) &&
      !CanActivate(Some(Validate(tokens.accessToken.payload))) &&
      !CanActivate(Some(Validate(tokens.refreshToken.payload)))
  {
    var created := Create(repo, email, password, salt).value;
    SignupThenValidate(repo, email, password, salt, password);
    var tokens := Login(signer, created.user).tokens;
    GuardDeniesValidatedUser(tokens.accessToken.payload);
    GuardDeniesValidatedUser(tokens.refreshToken.payload);
  }

  /** The verification flow on concrete values: code "123456" for
      "test@example.com" is accepted a minute later, leaving the flag
      "true" for ten minutes, while "999999" is refused. */
  lemma VerificationExample(config: Config, st: State)
    ensures var sent := Wait(SendVerificationCode(config, st, "test@example.com", "123456"), 60);
      var checked := VerifyCode(sent, "test@example.com", "123456");
      checked.Ok? &&
      Get(checked.value.store, DoneKey("test@example.com")) == Some("true") &&
      VerifyCode(sent, "test@example.com", "999999") == Err(Unauthorized(InvalidCodeMessage))
  {
    RoundTrip(config, st, "test@example.com", "123456", 60, 0);
  }
}

=== FILE: ttl_store.dfy ===
/** The key/value store with time-to-live used for the ephemeral records.

    Its implementation is not part of this model: only the calls
    `set(key, value, ttlSeconds)` and `get(key)` are used. A key written at
    time `t` with TTL `ttl` is visible while the clock reads less than
    `t + ttl` and absent from then on, as with Redis `SET key value EX ttl`.
 */
module TtlStore {
  import opened Results

  /** One stored value and the instant (in seconds) at which it expires. */
  datatype Entry = Entry(value: string, expiresAt: int)

  /** The store's contents together with the current clock reading. */
  datatype Store = Store(entries: map<string, Entry>, now: int)

  /** The key holds a value that has not yet expired. */
  predicate Live(s: Store, key: string)
  {
    key in s.entries && s.now < s.entries[key].expiresAt
  }

  /** `get(key)`: the live value, or absent when missing or expired. */
  function Get(s: Store, key: string): (r: Option<string>)
    ensures r.Some? <==> Live(s, key)
    ensures r.Some? ==> r.value == s.entries[key].value
  {
    if Live(s, key) then Some(s.entries[key].value) else None
  }

  /** `set(key, value, ttl)`: overwrites any earlier value and restarts its TTL. */
  function Set(s: Store, key: string, value: string, ttl: nat): (r: Store)
    ensures r.now == s.now
    ensures key in r.entries && r.entries[key] == Entry(value, s.now + ttl)
    ensures UnchangedExcept(s, r, {key})
  {
    Store(s.entries[key := Entry(value, s.now + ttl)], s.now)
  }

  /** The passage of `dt` seconds. */
  function Tick(s: Store, dt: nat): (r: Store)
    ensures r.entries == s.entries && r.now == s.now + dt
  {
    s.(now := s.now + dt)
  }

  /** Every key outside `keys` is stored identically in `s` and `s'`. */
  ghost predicate UnchangedExcept(s: Store, s': Store, keys: set<string>)
  {
    forall k :: k !in keys ==>
      (k in s.entries <==> k in s'.entries) &&
      (k in s.entries ==> s.entries[k] == s'.entries[k])
  }

  /** A value read back right after it was written, at any time before its TTL runs out. */
  lemma GetAfterSet(s: Store, key: string, value: string, ttl: nat, dt: nat)
    ensures Get(Tick(Set(s, key, value, ttl), dt), key) == if dt < ttl then Some(value) else None
  {
  }

  /** Writing one key does not change what any other key reads. */
  lemma GetOtherKey(s: Store, key: string, value: string, ttl: nat, other: string)
    requires other != key
    ensures Get(Set(s, key, value, ttl), other) == Get(s, other)
  {
  }

  /** Writing the same value twice at the same instant is the same as writing it once. */
  lemma SetIdempotent(s: Store, key: string, value: string, ttl: nat)
    ensures Set(Set(s, key, value, ttl), key, value, ttl) == Set(s, key, value, ttl)
  {
  }
}

=== FILE: users_service.dfy ===
/** `UsersService`: sign-up over a user repository.

    The repository is the `users` table keyed by its unique `email` column,
    with the next value of the generated primary key.
 */
module UsersService {
  import opened Results
  import opened Crypt

  /** Message of the exception raised when the e-mail is taken. */
  const ExistingEmailMessage := "이미 존재하는 이메일입니다."

  /** A row of the `roles` table. */
  datatype Role = Role(id: nat, name: string)

  /** A row of the `users` table with its eagerly loaded roles. */
  datatype User = User(id: nat, email: string, password: PasswordHash, roles: seq<Role>)

  /** The `users` table, keyed by e-mail, and the next generated id. */
  datatype Repo = Repo(users: map<string, User>, nextId: nat)

  /** The repository's integrity: each user is filed under its own e-mail, and
      ids are distinct and below the next id to be generated. */
  ghost predicate Valid(repo: Repo)
  {
    && (forall e :: e in repo.users ==> repo.users[e].email == e && repo.users[e].id < repo.nextId)
    && (forall e, e' :: e in repo.users && e' in repo.users && e != e' ==> repo.users[e].id != repo.users[e'].id)
  }

  /** A valid repository holds at most one user per e-mail and per id. */
  lemma ValidUnique(repo: Repo, e: string, e': string)
    requires Valid(repo)
    requires e in repo.users && e' in repo.users
    ensures repo.users[e].email == repo.users[e'].email ==> e == e'
    ensures repo.users[e].id == repo.users[e'].id ==> e == e'
  {
  }

  /** `findOne({ where: { email } })`: the user with that e-mail, or none. */
  function FindByEmail(repo: Repo, email: string): (r: Option<User>)
    ensures r.Some? <==> email in repo.users
    ensures r.Some? ==> r.value == repo.users[email]
    ensures Valid(repo) && r.Some? ==> r.value.email == email
  {
    if email in repo.users then Some(repo.users[email]) else None
  }

  /** The repository after a successful sign-up, and the saved user. */
  datatype Created = Created(repo: Repo, user: User)

  /** `create({ email, password })` with `salt` as the salt bcrypt generates. */
  function Create(repo: Repo, email: string, password: string, salt: nat): (r: Result<Created>)
    ensures r.Err? <==> FindByEmail(repo, email).Some?
    ensures r.Err? ==> r.error == Conflict(ExistingEmailMessage)
    ensures r.Ok? ==> r.value.user.email == email
    ensures r.Ok? ==> Compare(password, r.value.user.password)
    ensures r.Ok? ==> forall p :: KeyBytes(p) == KeyBytes(password) ==> Compare(p, r.value.user.password)
    ensures r.Ok? ==> forall p :: NulFree(p) && NulFree(password) ==>
      (Compare(p, r.value.user.password) <==> KeyBytes(p) == KeyBytes(password))
    ensures r.Ok? ==> r.value.user.password.cost == Cost && r.value.user.roles == []
    ensures r.Ok? ==> FindByEmail(r.value.repo, email) == Some(r.value.user)
    ensures r.Ok? ==> forall e :: e != email ==> FindByEmail(r.value.repo, e) == FindByEmail(repo, e)
    ensures r.Ok? ==> r.value.repo.users.Keys == repo.users.Keys + {email}
    ensures r.Ok? && Valid(repo) ==> Valid(r.value.repo)
  {
    if email in repo.users then
      Err(Conflict(ExistingEmailMessage))
    else
      var user := User(repo.nextId, email, Hash(password, salt), []);
      Ok(Created(Repo(repo.users[email := user], repo.nextId + 1), user))
  }

  /** Signing up twice with one e-mail: the second attempt conflicts. */
  lemma SecondSignupConflicts(repo: Repo, email: string, password: string, salt: nat, password': string, salt': nat)
    requires Create(repo, email, password, salt).Ok?
    ensures Create(Create(repo, email, password, salt).value.repo, email, password', salt')
         == Err(Conflict(ExistingEmailMessage))
  {
  }
}
